=== FILE: README.md ===
# BMP280 compensation and BCM2835 GPIO addressing, in Dafny

This project models the pure integer and bit logic in two Linux drivers.

**The BMP280 I2C client driver.** The model covers:
- how the 24-byte calibration block is decoded into the twelve trimming coefficients (`struct bmp280_calib`);
- how the 6-byte burst is decoded into the 20-bit temperature and pressure counts;
- the datasheet's 32-bit fixed-point compensation, `bmp280_compensate_T` and `bmp280_compensate_P`.

The last of these includes `t_fine`, which temperature compensation stores in the device state and pressure compensation reads back. C arithmetic is written out explicitly:
- s32 and u32 results wrap modulo 2^32, because the kernel builds with `-fno-strict-overflow`;
- `(s16)`, `(u32)` and `(s32)` conversions keep the low bits;
- a signed `>>` rounds towards minus infinity.

A bulk read over regmap is represented by its outcome: the status it returned and the bytes it left in the buffer.

**The BCM2835 GPIO platform driver.** The model covers the four `gpio_chip` callbacks `set`, `get`, `direction_input` and `direction_output`, and how they compute their addresses. The memory-mapped register bank is a map from byte offset to 32-bit word. Each callback is modelled by the words it writes. Plain memory (`Store`) applies those writes. A separate, explicitly assumed model of the peripheral (`Drive`) turns set and clear writes into level changes.

Files:
- `c_int.dfy`: C fixed-width arithmetic, i.e. wrap-around, conversions and shifts.
- `bmp280.dfy`: the BMP280 decoding and compensation, as the driver computes them.
- `bmp280_reference.dfy`: the datasheet formulas in exact arithmetic, and the conditions under which the driver agrees with them.
- `bmp280_properties.dfy`: the datasheet's worked example, and properties that relate several calls.
- `bcm2835_gpio.dfy`: GPIO addressing and the callbacks.
- `bcm2835_gpio_properties.dfy`: frame properties, injectivity of the addressing, and level behaviour against the assumed peripheral.

Source paths below are abbreviated:
- I2C = `meta-custom/recipes-kernel/linux/files/drivers/i2c/custom-bcm2835-i2c-client-driver.c`
- GPIO = `meta-custom/recipes-kernel/linux/files/drivers/pinctrl/custom-bcm2835-gpio-driver.c`

The table cells carry the full paths.

## Model

| member | source | states |
|---|---|---|
| CInt.WrapS32 | meta-custom/recipes-kernel/linux/files/drivers/i2c/custom-bcm2835-i2c-client-driver.c:49-53 | An s32 result is the exact value modulo 2^32, and it is the exact value whenever that fits in s32. |
| CInt.WrapU32 | meta-custom/recipes-kernel/linux/files/drivers/i2c/custom-bcm2835-i2c-client-driver.c:74 | A u32 result or `(u32)` conversion is the exact value modulo 2^32, and it is the exact value whenever that is in [0, 2^32). |
| CInt.ToS16 | meta-custom/recipes-kernel/linux/files/drivers/i2c/custom-bcm2835-i2c-client-driver.c:118 | `(s16)` of a 16-bit pattern agrees with it modulo 2^16 and keeps patterns below 0x8000. |
| CInt.Asr | meta-custom/recipes-kernel/linux/files/drivers/i2c/custom-bcm2835-i2c-client-driver.c:49 | `x >> k` on an s32 is the floor of x / 2^k: 2^k·r <= x < 2^k·r + 2^k. |
| CInt.Lsr | meta-custom/recipes-kernel/linux/files/drivers/i2c/custom-bcm2835-i2c-client-driver.c:81 | `x >> k` on a u32 is the floor of x / 2^k, never larger than x. |
| CInt.S32U32RoundTrip | meta-custom/recipes-kernel/linux/files/drivers/i2c/custom-bcm2835-i2c-client-driver.c:76 | `(s32)(u32)x == x`, so `(u32)var1` is 0 only when var1 is 0. |
| CInt.S16U16RoundTrip | meta-custom/recipes-kernel/linux/files/drivers/i2c/custom-bcm2835-i2c-client-driver.c:118-128 | `(s16)` and `(u16)` are mutually inverse on 16-bit patterns. |
| Bmp280.DecodeCalib | meta-custom/recipes-kernel/linux/files/drivers/i2c/custom-bcm2835-i2c-client-driver.c:117-128 | No contract of its own. `CalibLayout` gives its value and `DecodeEncodeCalib` / `DecodeEncode` show it inverts `EncodeCalib`. |
| Bmp280.LittleEndian16 | meta-custom/recipes-kernel/linux/files/drivers/i2c/custom-bcm2835-i2c-client-driver.c:117 | `(hi << 8) \| lo` has lo as its low byte and hi as its high byte. |
| Bmp280.CalibLayout | meta-custom/recipes-kernel/linux/files/drivers/i2c/custom-bcm2835-i2c-client-driver.c:117-128 | Coefficient i has buf[2i] as its low byte and buf[2i+1] as its high byte. dig_T1 and dig_P1 are read unsigned; the other ten are two's complement. |
| Bmp280.DecodeEncodeCalib | meta-custom/recipes-kernel/linux/files/drivers/i2c/custom-bcm2835-i2c-client-driver.c:22-35 | Decoding the register image of any coefficient set gives that set back. |
| Bmp280.DecodeEncode | meta-custom/recipes-kernel/linux/files/drivers/i2c/custom-bcm2835-i2c-client-driver.c:117-128 | Every 24-byte block is the register image of the set decoded from it, so decoding loses nothing. |
| Bmp280.ReadRegs | meta-custom/recipes-kernel/linux/files/drivers/i2c/custom-bcm2835-i2c-client-driver.c:88-97 | A negative bus status is returned unchanged. Any other status becomes 0. |
| Bmp280.ReadCalib | meta-custom/recipes-kernel/linux/files/drivers/i2c/custom-bcm2835-i2c-client-driver.c:108-132 | On a failed read, the error is returned and the device is untouched. On success, 0 is returned, t_fine is kept, and the new set is the one whose register image is the buffer. |
| Bmp280.Adc20 | meta-custom/recipes-kernel/linux/files/drivers/i2c/custom-bcm2835-i2c-client-driver.c:143 | A count is in [0, 2^20). Its bits 19..12 are msb, bits 11..4 are lsb, and bits 3..0 are the high nibble of xlsb. |
| Bmp280.DecodeRaw | meta-custom/recipes-kernel/linux/files/drivers/i2c/custom-bcm2835-i2c-client-driver.c:143-144 | adc_P comes from buf[0..2] and adc_T from buf[3..5]. Both are in [0, 2^20). |
| Bmp280.ReadRawSample | meta-custom/recipes-kernel/linux/files/drivers/i2c/custom-bcm2835-i2c-client-driver.c:134-147 | Reports an error exactly when the bus status is negative, and passes that code on. Otherwise both counts are in [0, 2^20). Pressure is buf[0] as bits 19..12, buf[1] as bits 11..4 and the high nibble of buf[2] as bits 3..0. Temperature is laid out the same way in buf[3..5]. |
| Bmp280.FineTemperature | meta-custom/recipes-kernel/linux/files/drivers/i2c/custom-bcm2835-i2c-client-driver.c:49-52 | t_fine always lies within ±0x120000, whatever the calibration and count: both terms are shifted s32 values, so their sum never wraps. |
| Bmp280.CentiDegrees | meta-custom/recipes-kernel/linux/files/drivers/i2c/custom-bcm2835-i2c-client-driver.c:53 | `(t_fine*5 + 128) >> 8` is t_fine/51.2 rounded to the nearest integer, halves upwards, for every t_fine in [-429496729, 429496703], exactly the range where `t_fine*5 + 128` does not wrap. That range contains every t_fine the driver produces (±0x120000). |
| Bmp280.CompensateTemperature | meta-custom/recipes-kernel/linux/files/drivers/i2c/custom-bcm2835-i2c-client-driver.c:46-56 | Only t_fine changes, and its new value depends only on the calibration and adc_T. The result is t_fine in hundredths of a degree, rounded to nearest, for every calibration and count. |
| Bmp280.PressureBase | meta-custom/recipes-kernel/linux/files/drivers/i2c/custom-bcm2835-i2c-client-driver.c:63 | The first var1 lies in [-2^30 - 64000, 2^30 - 64000), so the subtraction never wraps. `BaseExact` gives its exact value. |
| Bmp280.PressureOffset | meta-custom/recipes-kernel/linux/files/drivers/i2c/custom-bcm2835-i2c-client-driver.c:64-67 | No contract of its own. `OffsetExact` gives its value under `FitsOffset`. |
| Bmp280.PressureDivisor | meta-custom/recipes-kernel/linux/files/drivers/i2c/custom-bcm2835-i2c-client-driver.c:68-70 | The divisor always lies in [-2^16, 2^16), because it is an s32 shifted right by 15. `DivisorExact` gives its value under `FitsDivisor`. |
| Bmp280.PressureNumerator | meta-custom/recipes-kernel/linux/files/drivers/i2c/custom-bcm2835-i2c-client-driver.c:74 | No contract of its own. `NumeratorExact` gives its value when the u32 conversions and the product stay in range. |
| Bmp280.DivideStep | meta-custom/recipes-kernel/linux/files/drivers/i2c/custom-bcm2835-i2c-client-driver.c:75-79 | Below 0x80000000, `p << 1` does not wrap and the result is floor(2p/d). Above it, the result is within one unit of that floor for d >= 2. For d == 1 the doubling wraps to 2p - 2^32. |
| Bmp280.DivideThenDouble | meta-custom/recipes-kernel/linux/files/drivers/i2c/custom-bcm2835-i2c-client-driver.c:78 | For d >= 2, `(p / d) * 2` is floor(2p/d) or one less: r·d <= 2p < r·d + 2d. For d == 1 and p >= 2^31 it wraps to 2p - 2^32. |
| Bmp280.DoubleThenDivide | meta-custom/recipes-kernel/linux/files/drivers/i2c/custom-bcm2835-i2c-client-driver.c:76 | Below 0x80000000, `(p << 1) / d` is the exact floor of 2p/d. |
| Bmp280.PressureCorrection | meta-custom/recipes-kernel/linux/files/drivers/i2c/custom-bcm2835-i2c-client-driver.c:80-83 | No contract of its own. `CorrectionExact` gives its value under `FitsCorrection`. |
| Bmp280.CompensatePressure | meta-custom/recipes-kernel/linux/files/drivers/i2c/custom-bcm2835-i2c-client-driver.c:71-73 | A zero divisor gives 0, and there is no division. |
| Bmp280.Measure | meta-custom/recipes-kernel/linux/files/drivers/i2c/custom-bcm2835-i2c-client-driver.c:216-221 | Running temperature then pressure on one sample leaves the device with the sample's t_fine and the calibration unchanged. |
| Bmp280Reference.FineTemperatureExact | meta-custom/recipes-kernel/linux/files/drivers/i2c/custom-bcm2835-i2c-client-driver.c:49-52 | When no intermediate overflows s32, the driver's t_fine equals the datasheet formula in exact arithmetic. |
| Bmp280Reference.BaseExact | meta-custom/recipes-kernel/linux/files/drivers/i2c/custom-bcm2835-i2c-client-driver.c:63 | The first var1 is t_fine/2 - 64000 exactly, for every t_fine. |
| Bmp280Reference.OffsetExact | meta-custom/recipes-kernel/linux/files/drivers/i2c/custom-bcm2835-i2c-client-driver.c:64-67 | When no intermediate overflows, var2 after the dig_P4 term equals the exact formula. |
| Bmp280Reference.DivisorExact | meta-custom/recipes-kernel/linux/files/drivers/i2c/custom-bcm2835-i2c-client-driver.c:68-70 | When no intermediate overflows, the scaled var1 (the divisor) equals the exact formula. |
| Bmp280Reference.NumeratorExact | meta-custom/recipes-kernel/linux/files/drivers/i2c/custom-bcm2835-i2c-client-driver.c:74 | When the u32 conversions and the product stay in range, p before the division equals the exact formula. |
| Bmp280Reference.DivideExact | meta-custom/recipes-kernel/linux/files/drivers/i2c/custom-bcm2835-i2c-client-driver.c:75-79 | The guarded division equals the datasheet's branch in exact arithmetic, except when p >= 2^31 and the divisor is 1. |
| Bmp280Reference.CorrectionExact | meta-custom/recipes-kernel/linux/files/drivers/i2c/custom-bcm2835-i2c-client-driver.c:80-83 | When no intermediate overflows, the dig_P7..dig_P9 correction equals the exact formula. |
| Bmp280Reference.CompensatePressureExact | meta-custom/recipes-kernel/linux/files/drivers/i2c/custom-bcm2835-i2c-client-driver.c:58-86 | When no intermediate overflows, the divisor is not negative, and p >= 2^31 never meets divisor 1, the driver's pressure equals the datasheet formula in exact arithmetic (0 for a zero divisor). |
| Bmp280Properties.DatasheetExample | meta-custom/recipes-kernel/linux/files/drivers/i2c/custom-bcm2835-i2c-client-driver.c:46-86 | With the datasheet's worked-example coefficients and counts (adc_T 519888, adc_P 415148), whatever t_fine held before: t_fine becomes 128422, the temperature is 2508 (25.08 °C) and the pressure is 100656 Pa. |
| Bmp280Properties.DatasheetExampleFits | meta-custom/recipes-kernel/linux/files/drivers/i2c/custom-bcm2835-i2c-client-driver.c:46-86 | The worked example overflows nothing, and exact arithmetic gives the same t_fine and pressure. |
| Bmp280Properties.MeasureIgnoresStaleFine | meta-custom/recipes-kernel/linux/files/drivers/i2c/custom-bcm2835-i2c-client-driver.c:52-63 | A measurement does not depend on the t_fine left by an earlier one. |
| Bmp280Properties.RawIgnoresLowNibble | meta-custom/recipes-kernel/linux/files/drivers/i2c/custom-bcm2835-i2c-client-driver.c:143-144 | Bursts that agree except in the low nibbles of the XLSB bytes decode to the same counts. |
| Bmp280Properties.RawDeterminesBurst | meta-custom/recipes-kernel/linux/files/drivers/i2c/custom-bcm2835-i2c-client-driver.c:143-144 | Conversely, bursts that decode to the same counts agree everywhere except in those low nibbles. |
| Bmp280Properties.ReadCalibDeterminesSet | meta-custom/recipes-kernel/linux/files/drivers/i2c/custom-bcm2835-i2c-client-driver.c:113-128 | A successful read installs exactly the set decoded from the buffer and nothing else. |
| Bcm2835Gpio.FselOffset | meta-custom/recipes-kernel/linux/files/drivers/pinctrl/custom-bcm2835-gpio-driver.c:49-51 | The function-select word of every pin below 54 is word-aligned and one of the six words GPFSEL0..GPFSEL0 + 20, never the reserved word at 0x18. |
| Bcm2835Gpio.FselShift | meta-custom/recipes-kernel/linux/files/drivers/pinctrl/custom-bcm2835-gpio-driver.c:50 | The field shift is a multiple of 3 and at most 27, so `0x7 << shift` fits in the word. |
| Bcm2835Gpio.FselShiftValue | meta-custom/recipes-kernel/linux/files/drivers/pinctrl/custom-bcm2835-gpio-driver.c:50 | The field shift is (offset % 10)·3. |
| Bcm2835Gpio.BitShift | meta-custom/recipes-kernel/linux/files/drivers/pinctrl/custom-bcm2835-gpio-driver.c:24 | The set, clear and level bit position is below 32. |
| Bcm2835Gpio.BitShiftValue | meta-custom/recipes-kernel/linux/files/drivers/pinctrl/custom-bcm2835-gpio-driver.c:24 | The set, clear and level bit position is offset % 32. |
| Bcm2835Gpio.SetOffset | meta-custom/recipes-kernel/linux/files/drivers/pinctrl/custom-bcm2835-gpio-driver.c:27 | The set word is word-aligned and one of the two words GPSET0 and GPSET0 + 4, never the reserved word at 0x24. |
| Bcm2835Gpio.ClrOffset | meta-custom/recipes-kernel/linux/files/drivers/pinctrl/custom-bcm2835-gpio-driver.c:30 | The clear word is word-aligned and one of the two words GPCLR0 and GPCLR0 + 4, never the reserved word at 0x30. |
| Bcm2835Gpio.LevOffset | meta-custom/recipes-kernel/linux/files/drivers/pinctrl/custom-bcm2835-gpio-driver.c:40 | The level word is word-aligned and inside [GPLEV0, GPLEV0 + 8), i.e. one of the two level words. |
| Bcm2835Gpio.FieldMask | meta-custom/recipes-kernel/linux/files/drivers/pinctrl/custom-bcm2835-gpio-driver.c:54 | `0x7 << shift`, shifted back, is the 3-bit mask 7. |
| Bcm2835Gpio.ClearedField | meta-custom/recipes-kernel/linux/files/drivers/pinctrl/custom-bcm2835-gpio-driver.c:54 | `val & ~(0x7 << shift)` reads 000 in the field and keeps every bit outside it. |
| Bcm2835Gpio.OutputField | meta-custom/recipes-kernel/linux/files/drivers/pinctrl/custom-bcm2835-gpio-driver.c:70-71 | Clearing the field and OR-ing `0x1 << shift` reads 001 in the field and keeps every bit outside it. |
| Bcm2835Gpio.GpioSet | meta-custom/recipes-kernel/linux/files/drivers/pinctrl/custom-bcm2835-gpio-driver.c:18-33 | Exactly one word is written: to the set word for a nonzero value, else to the clear word. It has exactly bit offset % 32 set. |
| Bcm2835Gpio.GpioGet | meta-custom/recipes-kernel/linux/files/drivers/pinctrl/custom-bcm2835-gpio-driver.c:35-44 | The result is 0 or 1, and it is 1 exactly when the pin's bit of its level word is set. Nothing is written. |
| Bcm2835Gpio.DirectionInput | meta-custom/recipes-kernel/linux/files/drivers/pinctrl/custom-bcm2835-gpio-driver.c:46-58 | One write to the pin's function-select word. The field reads 000, every bit outside it keeps the value read, and 0 is returned. |
| Bcm2835Gpio.DirectionOutput | meta-custom/recipes-kernel/linux/files/drivers/pinctrl/custom-bcm2835-gpio-driver.c:60-77 | First the function-select write with the field 001 and the other bits kept, then exactly the `custom_gpio_set` write. 0 is returned. |
| Bcm2835Gpio.Store | meta-custom/recipes-kernel/linux/files/drivers/pinctrl/custom-bcm2835-gpio-driver.c:55 | A `writel` to memory: the word written is read back and every other word is kept. |
| Bcm2835GpioProperties.FieldIsolation | meta-custom/recipes-kernel/linux/files/drivers/pinctrl/custom-bcm2835-gpio-driver.c:49-54 | Two different pins in the same function-select word have disjoint 3-bit masks. |
| Bcm2835GpioProperties.FselWordsApart | meta-custom/recipes-kernel/linux/files/drivers/pinctrl/custom-bcm2835-gpio-driver.c:49-51 | Pins in different groups of ten use different function-select words, e.g. 9 and 10. |
| Bcm2835GpioProperties.FselLocationInjective | meta-custom/recipes-kernel/linux/files/drivers/pinctrl/custom-bcm2835-gpio-driver.c:49-51 | A function-select word and shift name exactly one pin. |
| Bcm2835GpioProperties.LevelLocationInjective | meta-custom/recipes-kernel/linux/files/drivers/pinctrl/custom-bcm2835-gpio-driver.c:38-40 | A level word and bit position name exactly one pin. |
| Bcm2835GpioProperties.SetWriteInjective | meta-custom/recipes-kernel/linux/files/drivers/pinctrl/custom-bcm2835-gpio-driver.c:23-32 | The `custom_gpio_set` write determines the pin and whether the value was nonzero. |
| Bcm2835GpioProperties.OtherFunctionsKept | meta-custom/recipes-kernel/linux/files/drivers/pinctrl/custom-bcm2835-gpio-driver.c:52-55 | A read-modify-write that keeps every bit outside pin p's field keeps every other pin's function. |
| Bcm2835GpioProperties.DirectionInputFrame | meta-custom/recipes-kernel/linux/files/drivers/pinctrl/custom-bcm2835-gpio-driver.c:46-58 | After direction_input, p's function is input, every other pin keeps its function, and every other register keeps its value. |
| Bcm2835GpioProperties.DirectionOutputFrame | meta-custom/recipes-kernel/linux/files/drivers/pinctrl/custom-bcm2835-gpio-driver.c:60-77 | After direction_output, p's function is output, every other pin keeps its function, the set or clear word holds the `custom_gpio_set` word, and every other register keeps its value. |
| Bcm2835GpioProperties.OutputThenInput | meta-custom/recipes-kernel/linux/files/drivers/pinctrl/custom-bcm2835-gpio-driver.c:54-71 | Output then input on one pin leaves it as an input whatever it was before, with every other pin's function kept. |
| Bcm2835GpioProperties.DriveSetWrite | meta-custom/recipes-kernel/linux/files/drivers/pinctrl/custom-bcm2835-gpio-driver.c:26-32 | Under the assumed peripheral, the `custom_gpio_set` write acts on the pin's own level word, raising its bit for a nonzero value and lowering it for zero. |
| Bcm2835GpioProperties.OwnLevelAfterSet | meta-custom/recipes-kernel/linux/files/drivers/pinctrl/custom-bcm2835-gpio-driver.c:18-44 | Under the assumed peripheral, after `set(p, v)` the level bit of p is v != 0. |
| Bcm2835GpioProperties.OtherLevelAfterSet | meta-custom/recipes-kernel/linux/files/drivers/pinctrl/custom-bcm2835-gpio-driver.c:18-44 | Under the assumed peripheral, `set(p, v)` keeps the level bit of every other pin, including pins that share p's level word. |
| Bcm2835GpioProperties.GetAfterSet | meta-custom/recipes-kernel/linux/files/drivers/pinctrl/custom-bcm2835-gpio-driver.c:18-44 | Under the assumed peripheral, `get(p)` after `set(p, v)` returns 1 exactly when v is nonzero, and `get` of every other pin is unchanged. |

## Left out

- Lifecycle and plumbing are not modelled: `custom_probe`, `custom_remove`, `custom_gpio_probe` and the driver registration tables. The probe's order of calls appears only in `Measure`.
- The bus is not modelled: regmap set-up, `regmap_read` of the chip id, the `ctrl_meas` and `config` writes, and `bmp280_write_reg`. `regmap_bulk_read` becomes a `Transfer`: its status and the buffer contents.
- Buffer sizes are preconditions. `ReadCalib`, `DecodeRaw` and `ReadRawSample` require exactly the 24 or 6 bytes that the fixed-size C arrays always hold.
- `readl` and `writel` are not real MMIO. The register bank is a map from byte offset to word, and the callbacks return the words they write.
- Logging (`dev_info`, `dev_err`, `pr_*`), `msleep` and `devm_*` allocation are not modelled.
- Locking and concurrent use of the read-modify-write are not modelled.
- Pin numbers beyond `ngpio` are excluded by the `Pin` type (offset < 54). The driver does no range check; gpiolib never passes such offsets. There is no "invalid pin" error in the code, so none is modelled.
- Drive: the relation between set/clear writes and the level register is hardware, not driver code. `Drive` is an assumption about the peripheral, and `GetAfterSet`, `OwnLevelAfterSet`, `OtherLevelAfterSet` and `DriveSetWrite` hold only under it.
- GpioSet: the C expression `0x1 << shift` is evaluated on an `int`. For shift 31 this is the sign bit, and it reaches `writel` as 0x80000000. The model computes the word as a 32-bit value directly.
- LittleEndian16, Adc20: the C code combines non-overlapping bit groups with `|`. The model writes these as sums, which give the same value because no bits overlap.
- DecodeCalib: no contract of its own. Its value is stated by the lemmas `CalibLayout`, `DecodeEncodeCalib` and `DecodeEncode`.
- PressureOffset: no contract of its own. Under `FitsOffset` its value is given by `OffsetExact`; outside that, it is whatever the wrapped s32 arithmetic gives.
- PressureNumerator: no contract of its own. `NumeratorExact` gives its value when nothing wraps; outside that, it is the wrapped u32 value.
- PressureCorrection: no contract of its own. Under `FitsCorrection` its value is given by `CorrectionExact`; outside that, it is whatever the wrapped arithmetic gives.
- CompensatePressure: its own contract states only the zero-divisor guard. Its value is characterised by `CompensatePressureExact` under the no-overflow conditions, and by the worked example. When an intermediate wraps, the result is whatever the wrapped arithmetic gives; the model computes it, but no closed form is stated.
- The source comment's "5123 => 51.23 C" is only an example of the unit. The datasheet's worked example gives 2508 (25.08 °C), and that is the value proved.
- Both division branches are modelled as written. For large p, dividing first can give one unit less than doubling first; `DivideStep` states the bound rather than equality.

=== FILE: bcm2835_gpio.dfy ===
/**
  The BCM2835 GPIO part of the platform driver: the four `gpio_chip`
  callbacks and the register addressing behind them.

  The memory-mapped register bank is a map from byte offset (relative to
  the mapped base) to 32-bit word.  Each callback is modelled by the words
  it writes, in order; `Store` applies them to the bank as plain memory.
 */
module Bcm2835Gpio {

  /** Register blocks, as byte offsets from the base. */
  const GPFSEL0: nat := 0x00
  const GPSET0: nat := 0x1C
  const GPCLR0: nat := 0x28
  const GPLEV0: nat := 0x34

  /** Pins the chip registers with gpiolib. */
  const NGPIO: nat := 54

  /** Function-select codes of a 3-bit field. */
  const FSEL_INPUT: bv32 := 0
  const FSEL_OUTPUT: bv32 := 1

  /** A pin offset.  The driver does no range check: gpiolib only passes
      offsets below `ngpio`. */
  type Pin = p: nat | p < NGPIO

  type Bank = map<nat, bv32>

  /** One `writel`: the word written and where. */
  datatype Write = Write(offset: nat, value: bv32)

  // ---------------------------------------------------------------------
  // Addressing

  /** The function-select word of a pin: ten pins per word, six words. */
  function FselOffset(pin: Pin): (off: nat)
    ensures GPFSEL0 <= off <= GPFSEL0 + 20 && off % 4 == 0
  {
    GPFSEL0 + (pin / 10) * 4
  }

  /** A bit position as a 32-bit word.  Written as a recursion rather than
      the conversion `k as bv32` because the verifier reasons about the
      recursive form far more cheaply inside bit-vector proofs. */
  function SmallToBv(k: nat): (s: bv32)
    requires k < 32
    ensures s as int == k
  {
    if k == 0 then 0 else SmallToBv(k - 1) + 1
  }

  /** Where the pin's 3-bit field starts in its function-select word. */
  function FselShift(pin: Pin): (s: bv32)
    ensures s % 3 == 0 && s <= 27
  {
    SmallToBv((pin % 10) * 3)
  }

  /** The field of pin p starts at bit (p % 10) * 3. */
  lemma FselShiftValue(pin: Pin)
    ensures FselShift(pin) as int == (pin % 10) * 3
  {
  }

  /** Where the pin's bit is in its set, clear and level words. */
  function BitShift(pin: Pin): (s: bv32)
    ensures s < 32
  {
    SmallToBv(pin % 32)
  }

  /** Pins 32 apart share a bit position, and no others do. */
  lemma BitShiftValue(pin: Pin)
    ensures BitShift(pin) as int == pin % 32
  {
  }

  /** The set word of a pin: 32 pins per word, two words. */
  function SetOffset(pin: Pin): (off: nat)
    ensures GPSET0 <= off <= GPSET0 + 4 && off % 4 == 0
  {
    GPSET0 + (pin / 32) * 4
  }

  /** The clear word of a pin. */
  function ClrOffset(pin: Pin): (off: nat)
    ensures GPCLR0 <= off <= GPCLR0 + 4 && off % 4 == 0
  {
    GPCLR0 + (pin / 32) * 4
  }

  /** The level word of a pin. */
  function LevOffset(pin: Pin): (off: nat)
    ensures GPLEV0 <= off < GPLEV0 + 8 && off % 4 == 0
  {
    GPLEV0 + (pin / 32) * 4
  }

  /** A bank in which every register the callbacks touch is mapped. */
  ghost predicate Mapped(bank: Bank)
  {
    forall p: Pin :: FselOffset(p) in bank && SetOffset(p) in bank && ClrOffset(p) in bank && LevOffset(p) in bank
  }

  /** Bit `b` of a word. */
  predicate Bit(w: bv32, b: bv32)
    requires b < 32
  {
    (w >> b) & 1 == 1
  }

  /** The 3-bit field at `shift`. */
  function Field(w: bv32, shift: bv32): (f: bv32)
    requires shift <= 29
    ensures f < 8
  {
    (w >> shift) & 7
  }

  /** `0x7 << shift`. */
  function FieldMask(shift: bv32): (m: bv32)
    requires shift <= 29
    ensures m >> shift == 7
  {
    7 << shift
  }

  /** Bit `b` lies outside the 3-bit field at `shift`. */
  predicate OutsideField(b: bv32, shift: bv32)
  {
    b < 32 && !(shift <= b < shift + 3)
  }

  lemma BitTest(w: bv32, s: bv32)
    requires s < 32
    ensures (w & (1 << s) != 0) <==> Bit(w, s)
  {
  }

  lemma BitOfSingle(s: bv32, b: bv32)
    requires s < 32 && b < 32
    ensures Bit(1 << s, b) <==> b == s
  {
  }

  /** `1 << s` has exactly bit `s` set. */
  lemma SingleBit(v: bv32, s: bv32)
    requires s < 32 && v == 1 << s
    ensures forall b: bv32 :: b < 32 ==> (Bit(v, b) <==> b == s)
  {
    forall b: bv32 | b < 32
      ensures Bit(v, b) <==> b == s
    {
      BitOfSingle(s, b);
    }
  }

  lemma ClearFieldBit(w: bv32, s: bv32, b: bv32)
    requires s <= 27 && OutsideField(b, s)
    ensures Bit(w & !FieldMask(s), b) <==> Bit(w, b)
  {
  }

  lemma SetOutputFieldBit(w: bv32, s: bv32, b: bv32)
    requires s <= 27 && OutsideField(b, s)
    ensures Bit((w & !FieldMask(s)) | (1 << s), b) <==> Bit(w, b)
  {
  }

  /** Clearing a field: the field reads 000, every other bit stays. */
  lemma ClearField(w: bv32, s: bv32, r: bv32)
    requires s <= 27 && r == w & !FieldMask(s)
    ensures Field(r, s) == 0
    ensures forall b: bv32 :: OutsideField(b, s) ==> (Bit(r, b) <==> Bit(w, b))
  {
    forall b: bv32 | OutsideField(b, s)
      ensures Bit(r, b) <==> Bit(w, b)
    {
      ClearFieldBit(w, s, b);
    }
  }

  /** Clearing a field and OR-ing in `1 << s`: the field reads 001, every
      other bit stays. */
  lemma SetOutputField(w: bv32, s: bv32, r: bv32)
    requires s <= 27 && r == (w & !FieldMask(s)) | (1 << s)
    ensures Field(r, s) == 1
    ensures forall b: bv32 :: OutsideField(b, s) ==> (Bit(r, b) <==> Bit(w, b))
  {
    forall b: bv32 | OutsideField(b, s)
      ensures Bit(r, b) <==> Bit(w, b)
    {
      SetOutputFieldBit(w, s, b);
    }
  }

  /** `w & ~(0x7 << s)`: the word with the field at `s` set to input. */
  function ClearedField(w: bv32, s: bv32): (r: bv32)
    requires s <= 27
    ensures Field(r, s) == FSEL_INPUT
    ensures forall b: bv32 :: OutsideField(b, s) ==> (Bit(r, b) <==> Bit(w, b))
  {
    var r := w & !FieldMask(s);
    ClearField(w, s, r);
    r
  }

  /** `(w & ~(0x7 << s)) | (0x1 << s)`: the word with the field at `s` set
      to output. */
  function OutputField(w: bv32, s: bv32): (r: bv32)
    requires s <= 27
    ensures Field(r, s) == FSEL_OUTPUT
    ensures forall b: bv32 :: OutsideField(b, s) ==> (Bit(r, b) <==> Bit(w, b))
  {
    var r := (w & !FieldMask(s)) | (1 << s);
    SetOutputField(w, s, r);
    r
  }

  // ---------------------------------------------------------------------
  // Callbacks

  /** `custom_gpio_set`: one write of the pin's bit, to the set word for a
      nonzero value and to the clear word otherwise; nothing is read. */
  function GpioSet(pin: Pin, value: int): (w: Write)
    ensures value != 0 ==> w.offset == SetOffset(pin)
    ensures value == 0 ==> w.offset == ClrOffset(pin)
    ensures forall b: bv32 :: b < 32 ==> (Bit(w.value, b) <==> b == BitShift(pin))
  {
    var shift := BitShift(pin);
    SingleBit(1 << shift, shift);
    Write(if value != 0 then SetOffset(pin) else ClrOffset(pin), 1 << shift)
  }

  /** `custom_gpio_get`: 1 when the pin's bit of its level word is set,
      else 0. */
  function GpioGet(bank: Bank, pin: Pin): (r: int)
    requires LevOffset(pin) in bank
    ensures r == 0 || r == 1
    ensures r == 1 <==> Bit(bank[LevOffset(pin)], BitShift(pin))
  {
    var shift := BitShift(pin);
    var val := bank[LevOffset(pin)];
    BitTest(val, shift);
    if val & (1 << shift) != 0 then 1 else 0
  }

  /** `custom_gpio_direction_input`: writes the pin's function-select word
      back with the field cleared, and returns 0. */
  function DirectionInput(bank: Bank, pin: Pin): (r: (Write, int))
    requires FselOffset(pin) in bank
    ensures r.1 == 0
    ensures r.0.offset == FselOffset(pin)
    ensures Field(r.0.value, FselShift(pin)) == FSEL_INPUT
    ensures forall b: bv32 :: OutsideField(b, FselShift(pin)) ==>
              (Bit(r.0.value, b) <==> Bit(bank[FselOffset(pin)], b))
  {
    var off := FselOffset(pin);
    var val := ClearedField(bank[off], FselShift(pin));
    (Write(off, val), 0)
  }

  /** `custom_gpio_direction_output`: writes the pin's function-select word
      back with the field set to 001, then performs the `custom_gpio_set`
      write for the initial value, and returns 0. */
  function DirectionOutput(bank: Bank, pin: Pin, value: int): (r: (seq<Write>, int))
    requires FselOffset(pin) in bank
    ensures r.1 == 0 && |r.0| == 2
    ensures r.0[0].offset == FselOffset(pin)
    ensures Field(r.0[0].value, FselShift(pin)) == FSEL_OUTPUT
    ensures forall b: bv32 :: OutsideField(b, FselShift(pin)) ==>
              (Bit(r.0[0].value, b) <==> Bit(bank[FselOffset(pin)], b))
    ensures r.0[1] == GpioSet(pin, value)
  {
    var off := FselOffset(pin);
    var val := OutputField(bank[off], FselShift(pin));
    ([Write(off, val), GpioSet(pin, value)], 0)
  }

  // ---------------------------------------------------------------------
  // Effect on the bank

  /** A write to plain memory. */
  function Store(bank: Bank, w: Write): (b: Bank)
    ensures b.Keys == bank.Keys + {w.offset}
    ensures w.offset in b && b[w.offset] == w.value
    ensures forall off :: off in bank && off != w.offset ==> off in b && b[off] == bank[off]
  {
    bank[w.offset := w.value]
  }

  /** Writes in order. */
  function StoreAll(bank: Bank, ws: seq<Write>): (b: Bank)
    ensures bank.Keys <= b.Keys
    decreases |ws|
  {
    if ws == [] then bank else StoreAll(Store(bank, ws[0]), ws[1..])
  }

  /** The function-select code a bank gives a pin. */
  function FunctionOf(bank: Bank, pin: Pin): bv32
    requires FselOffset(pin) in bank
  {
    Field(bank[FselOffset(pin)], FselShift(pin))
  }
}

=== FILE: bcm2835_gpio_properties.dfy ===
/**
  Properties of the GPIO model across calls and across pins: the register
  layout keeps every pin's bits apart, the read-modify-write touches only
  its own field, and, against an assumed model of the peripheral, a level
  written is the level read back.
 */
module Bcm2835GpioProperties {
  import opened Bcm2835Gpio

  // ---------------------------------------------------------------------
  // Layout

  /** Two pins that share a function-select word have disjoint masks. */
  lemma FieldIsolation(p: Pin, q: Pin)
    requires p != q && FselOffset(p) == FselOffset(q)
    ensures FieldMask(FselShift(p)) & FieldMask(FselShift(q)) == 0
  {
    var sp, sq := FselShift(p), FselShift(q);
    assert sp != sq by {
      FselShiftValue(p);
      FselShiftValue(q);
    }
    ThreeApart(sp, sq);
    MasksApart(sp, sq);
  }

  /** Pins in different groups of ten use different function-select
      words (9 and 10, say, or 19 and 20). */
  lemma FselWordsApart(p: Pin, q: Pin)
    requires p / 10 != q / 10
    ensures FselOffset(p) != FselOffset(q)
  {
  }

  /** Two field positions that are multiples of 3 are 3 apart or equal. */
  lemma ThreeApart(s1: bv32, s2: bv32)
    requires s1 <= 27 && s2 <= 27 && s1 % 3 == 0 && s2 % 3 == 0 && s1 != s2
    ensures s1 + 3 <= s2 || s2 + 3 <= s1
  {
  }

  /** Masks of fields 3 or more bits apart do not overlap. */
  lemma MasksApart(s1: bv32, s2: bv32)
    requires s1 <= 27 && s2 <= 27 && (s1 + 3 <= s2 || s2 + 3 <= s1)
    ensures FieldMask(s1) & FieldMask(s2) == 0
  {
  }

  /** A function-select location names exactly one pin. */
  lemma FselLocationInjective(p: Pin, q: Pin)
    requires FselOffset(p) == FselOffset(q) && FselShift(p) == FselShift(q)
    ensures p == q
  {
    FselShiftValue(p);
    FselShiftValue(q);
  }

  /** A level word and bit position name exactly one pin. */
  lemma LevelLocationInjective(p: Pin, q: Pin)
    requires LevOffset(p) == LevOffset(q) && BitShift(p) == BitShift(q)
    ensures p == q
  {
    BitShiftValue(p);
    BitShiftValue(q);
  }

  /** The write `custom_gpio_set` performs determines the pin and whether
      the level was high or low. */
  lemma SetWriteInjective(p: Pin, q: Pin, v1: int, v2: int)
    requires GpioSet(p, v1) == GpioSet(q, v2)
    ensures p == q
    ensures v1 != 0 <==> v2 != 0
  {
    var w := GpioSet(p, v1);
    assert Bit(w.value, BitShift(p));
    assert BitShift(p) == BitShift(q);
    assert p / 32 == q / 32;
    LevelLocationInjective(p, q);
  }

  // ---------------------------------------------------------------------
  // Function-select frame

  lemma FieldFromBits(w1: bv32, w2: bv32, s: bv32)
    requires s <= 27
    requires Bit(w1, s) == Bit(w2, s) && Bit(w1, s + 1) == Bit(w2, s + 1) && Bit(w1, s + 2) == Bit(w2, s + 2)
    ensures Field(w1, s) == Field(w2, s)
  {
  }

  /** Another pin's field lies wholly outside this pin's field. */
  lemma OtherFieldOutside(p: Pin, q: Pin)
    requires p != q && FselOffset(p) == FselOffset(q)
    ensures OutsideField(FselShift(q), FselShift(p))
    ensures OutsideField(FselShift(q) + 1, FselShift(p))
    ensures OutsideField(FselShift(q) + 2, FselShift(p))
  {
    var sp, sq := FselShift(p), FselShift(q);
    assert sp != sq by {
      FselShiftValue(p);
      FselShiftValue(q);
    }
    ThreeApart(sp, sq);
  }

  /** Rewriting pin p's field with a word that keeps every bit outside it
      keeps every other pin's function. */
  lemma OtherFunctionsKept(bank: Bank, p: Pin, val: bv32, q: Pin)
    requires Mapped(bank) && p != q
    requires forall b: bv32 :: OutsideField(b, FselShift(p)) ==> (Bit(val, b) <==> Bit(bank[FselOffset(p)], b))
    ensures FunctionOf(bank[FselOffset(p) := val], q) == FunctionOf(bank, q)
  {
    if FselOffset(p) == FselOffset(q) {
      OtherFieldOutside(p, q);
      var s := FselShift(q);
      FieldFromBits(val, bank[FselOffset(p)], s);
    }
  }

  /** `custom_gpio_direction_input` on pin p: p's field reads 000
      afterwards, every other pin keeps its function (also across a word
      boundary), and every other register keeps its value. */
  lemma DirectionInputFrame(bank: Bank, p: Pin)
    requires Mapped(bank)
    ensures var b := Store(bank, DirectionInput(bank, p).0);
      && Mapped(b)
      && FunctionOf(b, p) == FSEL_INPUT
      && (forall q: Pin :: q != p ==> FunctionOf(b, q) == FunctionOf(bank, q))
      && (forall off :: off in bank && off != FselOffset(p) ==> off in b && b[off] == bank[off])
  {
    var w := DirectionInput(bank, p).0;
    var b := Store(bank, w);
    forall q: Pin | q != p
      ensures FunctionOf(b, q) == FunctionOf(bank, q)
    {
      OtherFunctionsKept(bank, p, w.value, q);
    }
  }

  /** `custom_gpio_direction_output` on pin p: p's field reads 001
      afterwards, every other pin keeps its function, the pin's set or
      clear word holds exactly the pin's bit, and nothing else changes. */
  lemma DirectionOutputFrame(bank: Bank, p: Pin, v: int)
    requires Mapped(bank)
    ensures var ws := DirectionOutput(bank, p, v).0;
      var b := StoreAll(bank, ws);
      && Mapped(b)
      && FunctionOf(b, p) == FSEL_OUTPUT
      && (forall q: Pin :: q != p ==> FunctionOf(b, q) == FunctionOf(bank, q))
      && b[ws[1].offset] == ws[1].value
      && (forall off :: off in bank && off != FselOffset(p) && off != ws[1].offset ==> off in b && b[off] == bank[off])
  {
    var ws := DirectionOutput(bank, p, v).0;
    StoreTwo(bank, ws);
    assert ws[1].offset != FselOffset(p);
    OtherFunctionsAfterOutput(bank, p, v);
  }

  lemma OtherFunctionsAfterOutput(bank: Bank, p: Pin, v: int)
    requires Mapped(bank)
    ensures var ws := DirectionOutput(bank, p, v).0;
      var b := Store(Store(bank, ws[0]), ws[1]);
      forall q: Pin :: q != p ==> FunctionOf(b, q) == FunctionOf(bank, q)
  {
    var ws := DirectionOutput(bank, p, v).0;
    var b := Store(Store(bank, ws[0]), ws[1]);
    forall q: Pin | q != p
      ensures FunctionOf(b, q) == FunctionOf(bank, q)
    {
      OtherFunctionsKept(bank, p, ws[0].value, q);
    }
  }

  /** Two writes in order are two stores. */
  lemma StoreTwo(bank: Bank, ws: seq<Write>)
    requires |ws| == 2
    ensures StoreAll(bank, ws) == Store(Store(bank, ws[0]), ws[1])
  {
    var b1 := Store(bank, ws[0]);
    var b := Store(b1, ws[1]);
    assert StoreAll(bank, ws) == StoreAll(b1, ws[1..]);
    assert StoreAll(b1, ws[1..]) == StoreAll(b, ws[1..][1..]);
    assert ws[1..][1..] == [];
  }

  /** Output then input on the same pin leaves its field at 000, whatever
      it held before, and every other pin with the function it had. */
  lemma OutputThenInput(bank: Bank, p: Pin, v: int)
    requires Mapped(bank)
    ensures var b1 := StoreAll(bank, DirectionOutput(bank, p, v).0);
      var b2 := Store(b1, DirectionInput(b1, p).0);
      && FunctionOf(b2, p) == FSEL_INPUT
      && (forall q: Pin :: q != p ==> FunctionOf(b2, q) == FunctionOf(bank, q))
  {
    DirectionOutputFrame(bank, p, v);
    var b1 := StoreAll(bank, DirectionOutput(bank, p, v).0);
    DirectionInputFrame(b1, p);
  }

  // ---------------------------------------------------------------------
  // Levels, against an assumed peripheral

  /** NOT the driver: an assumed model of the peripheral.  A 1 written to a
      set (clear) word raises (lowers) the same bit of the matching level
      word; any other write is plain memory. */
  function Drive(bank: Bank, w: Write): Bank
  {
    if GPSET0 <= w.offset < GPCLR0 && w.offset - GPSET0 + GPLEV0 in bank then
      Pulse(bank, w.offset - GPSET0 + GPLEV0, w.value, true)
    else if GPCLR0 <= w.offset < GPLEV0 && w.offset - GPCLR0 + GPLEV0 in bank then
      Pulse(bank, w.offset - GPCLR0 + GPLEV0, w.value, false)
    else
      Store(bank, w)
  }

  /** A level word with the bits of `v` raised, or lowered. */
  function Level(x: bv32, v: bv32, raise: bool): bv32
  {
    if raise then x | v else x & !v
  }

  /** Each bit of `v` is driven to `raise`; every other bit keeps its
      level. */
  lemma LevelBit(x: bv32, v: bv32, raise: bool, t: bv32)
    requires t < 32
    ensures Bit(Level(x, v, raise), t) <==> if Bit(v, t) then raise else Bit(x, t)
  {
    if raise {
      OrBit(x, v, t);
    } else {
      AndNotBit(x, v, t);
    }
  }

  lemma OrBit(x: bv32, v: bv32, t: bv32)
    requires t < 32
    ensures Bit(x | v, t) <==> Bit(x, t) || Bit(v, t)
  {
  }

  lemma AndNotBit(x: bv32, v: bv32, t: bv32)
    requires t < 32
    ensures Bit(x & !v, t) <==> Bit(x, t) && !Bit(v, t)
  {
  }

  /** The bank with the level word at `lev` driven by `v`. */
  function Pulse(bank: Bank, lev: nat, v: bv32, raise: bool): (b: Bank)
    requires lev in bank
    ensures lev in b && b[lev] == Level(bank[lev], v, raise)
    ensures forall off :: off in bank ==> off in b && (off != lev ==> b[off] == bank[off])
  {
    bank[lev := Level(bank[lev], v, raise)]
  }

  /** Where the assumed peripheral puts the `custom_gpio_set` write: on
      the pin's level word, raising its bits for a nonzero value and
      lowering them for zero. */
  lemma DriveSetWrite(bank: Bank, p: Pin, v: int)
    requires LevOffset(p) in bank
    ensures var w := GpioSet(p, v);
      Drive(bank, w) == Pulse(bank, LevOffset(p), w.value, v != 0)
  {
    var w := GpioSet(p, v);
    if v != 0 {
      assert w.offset - GPSET0 + GPLEV0 == LevOffset(p);
    } else {
      assert w.offset - GPCLR0 + GPLEV0 == LevOffset(p);
    }
  }

  /** Under the assumed peripheral, after `custom_gpio_set(p, v)` the level
      bit of pin p is v != 0. */
  lemma OwnLevelAfterSet(bank: Bank, p: Pin, v: int)
    requires LevOffset(p) in bank
    ensures var b := Drive(bank, GpioSet(p, v));
      LevOffset(p) in b && (Bit(b[LevOffset(p)], BitShift(p)) <==> v != 0)
  {
    var w := GpioSet(p, v);
    DriveSetWrite(bank, p, v);
    LevelBit(bank[LevOffset(p)], w.value, v != 0, BitShift(p));
  }

  /** Under the assumed peripheral, `custom_gpio_set(p, v)` leaves the level
      bit of every other pin q as it was, also when p and q share a level
      word. */
  lemma OtherLevelAfterSet(bank: Bank, p: Pin, v: int, q: Pin)
    requires LevOffset(p) in bank && LevOffset(q) in bank && q != p
    ensures var b := Drive(bank, GpioSet(p, v));
      LevOffset(q) in b && (Bit(b[LevOffset(q)], BitShift(q)) <==> Bit(bank[LevOffset(q)], BitShift(q)))
  {
    DriveSetWrite(bank, p, v);
    if LevOffset(q) == LevOffset(p) {
      NeighbourLevelAfterSet(bank, p, v, q);
    }
  }

  lemma NeighbourLevelAfterSet(bank: Bank, p: Pin, v: int, q: Pin)
    requires LevOffset(p) in bank && LevOffset(q) == LevOffset(p) && q != p
    ensures var b := Pulse(bank, LevOffset(p), GpioSet(p, v).value, v != 0);
      Bit(b[LevOffset(q)], BitShift(q)) <==> Bit(bank[LevOffset(q)], BitShift(q))
  {
    var lev, t := LevOffset(p), BitShift(q);
    var x := GpioSet(p, v).value;
    assert t != BitShift(p) by {
      if t == BitShift(p) {
        LevelLocationInjective(p, q);
      }
    }
    assert !Bit(x, t);
    LevelBit(bank[lev], x, v != 0, t);
  }

  /** Under the assumed peripheral, `custom_gpio_get` after
      `custom_gpio_set(p, v)` reads 1 exactly when v was nonzero, and every
      other pin reads what it read before. */
  lemma GetAfterSet(bank: Bank, p: Pin, v: int)
    requires Mapped(bank)
    ensures var b := Drive(bank, GpioSet(p, v));
      && LevOffset(p) in b
      && GpioGet(b, p) == (if v != 0 then 1 else 0)
      && (forall q: Pin :: q != p ==> LevOffset(q) in b && GpioGet(b, q) == GpioGet(bank, q))
  {
    var b := Drive(bank, GpioSet(p, v));
    OwnLevelAfterSet(bank, p, v);
    forall q: Pin | q != p
      ensures LevOffset(q) in b && GpioGet(b, q) == GpioGet(bank, q)
    {
      OtherLevelAfterSet(bank, p, v, q);
    }
  }
}

=== FILE: bmp280.dfy ===
/**
  The BMP280 part of the I2C client driver: the calibration block and the
  raw-sample burst as the driver decodes them, and the datasheet's 32-bit
  fixed-point temperature and pressure compensation, with `t_fine` carried
  from the first to the second in the device state.

  The register transport (regmap over I2C) is not modelled: a bulk read is
  represented by its outcome, the status it returned and the bytes it left
  in the driver's buffer.
 */
module Bmp280 {
  import opened CInt

  const CALIB_LEN: nat := 24
  const RAW_LEN: nat := 6

  /** The twelve trimming coefficients, in register order. */
  datatype Calib = Calib(
    t1: u16, t2: s16, t3: s16,
    p1: u16, p2: s16, p3: s16, p4: s16, p5: s16, p6: s16, p7: s16, p8: s16, p9: s16)

  /** The per-device state the compensation reads and writes. */
  datatype Device = Device(calib: Calib, tFine: s32)

  /** The two ADC counts of one burst read. */
  datatype RawSample = RawSample(adcT: s32, adcP: s32)

  /** The outcome of one `regmap_bulk_read`: its return value, and the bytes
      the driver's buffer holds afterwards. */
  datatype Transfer = Transfer(status: int, data: seq<u8>)

  datatype Result<T> = Ok(value: T) | Err(code: int)

  // ---------------------------------------------------------------------
  // Calibration block

  /** `(hi << 8) | lo`: the two bytes do not overlap, so the OR is a sum. */
  function LittleEndian16(lo: u8, hi: u8): (r: u16)
    ensures r % 256 == lo && r / 256 == hi
  {
    hi * 256 + lo
  }

  /** The 16-bit register pattern of each coefficient, in register order. */
  function Words(c: Calib): (w: seq<u16>)
    ensures |w| == 12
  {
    [c.t1, ToU16(c.t2), ToU16(c.t3),
     c.p1, ToU16(c.p2), ToU16(c.p3), ToU16(c.p4), ToU16(c.p5),
     ToU16(c.p6), ToU16(c.p7), ToU16(c.p8), ToU16(c.p9)]
  }

  /** The assignments that follow a successful calibration read. */
  function DecodeCalib(buf: seq<u8>): (c: Calib)
    requires |buf| == CALIB_LEN
  {
    Calib(
      LittleEndian16(buf[0], buf[1]),
      ToS16(LittleEndian16(buf[2], buf[3])),
      ToS16(LittleEndian16(buf[4], buf[5])),
      LittleEndian16(buf[6], buf[7]),
      ToS16(LittleEndian16(buf[8], buf[9])),
      ToS16(LittleEndian16(buf[10], buf[11])),
      ToS16(LittleEndian16(buf[12], buf[13])),
      ToS16(LittleEndian16(buf[14], buf[15])),
      ToS16(LittleEndian16(buf[16], buf[17])),
      ToS16(LittleEndian16(buf[18], buf[19])),
      ToS16(LittleEndian16(buf[20], buf[21])),
      ToS16(LittleEndian16(buf[22], buf[23])))
  }

  /** The register contents a calibration set is read from: the inverse of
      `DecodeCalib`. */
  function EncodeCalib(c: Calib): (buf: seq<u8>)
    ensures |buf| == CALIB_LEN
  {
    var w := Words(c);
    seq(CALIB_LEN, j requires 0 <= j < CALIB_LEN =>
      if j % 2 == 0 then w[j / 2] % 256 else w[j / 2] / 256)
  }

  /** Coefficient i is read from buf[2i] (low byte) and buf[2i+1] (high
      byte); dig_T1 and dig_P1 unsigned, the rest as two's complement. */
  lemma CalibLayout(buf: seq<u8>)
    requires |buf| == CALIB_LEN
    ensures forall i :: 0 <= i < 12 ==> Words(DecodeCalib(buf))[i] == LittleEndian16(buf[2 * i], buf[2 * i + 1])
    ensures DecodeCalib(buf).t1 == LittleEndian16(buf[0], buf[1])
    ensures DecodeCalib(buf).p1 == LittleEndian16(buf[6], buf[7])
  {
    var c := DecodeCalib(buf);
    var w := Words(c);
    forall i | 0 <= i < 12
      ensures w[i] == LittleEndian16(buf[2 * i], buf[2 * i + 1])
    {
      S16U16RoundTrip(0, LittleEndian16(buf[2 * i], buf[2 * i + 1]));
    }
  }

  /** Reading back the bytes of a calibration set gives the same set. */
  lemma DecodeEncodeCalib(c: Calib)
    ensures DecodeCalib(EncodeCalib(c)) == c
  {
    var buf := EncodeCalib(c);
    var d := DecodeCalib(buf);
    var w := Words(c);
    forall i | 0 <= i < 12
      ensures LittleEndian16(buf[2 * i], buf[2 * i + 1]) == w[i]
    {
    }
    S16U16RoundTrip(c.t2, 0);
    assert d.t2 == c.t2;
  }

  /** Decoding loses nothing: the bytes can be rebuilt from the set. */
  lemma DecodeEncode(buf: seq<u8>)
    requires |buf| == CALIB_LEN
    ensures EncodeCalib(DecodeCalib(buf)) == buf
  {
    CalibLayout(buf);
    var e := EncodeCalib(DecodeCalib(buf));
    var w := Words(DecodeCalib(buf));
    forall j | 0 <= j < CALIB_LEN
      ensures e[j] == buf[j]
    {
      var i := j / 2;
      assert w[i] == LittleEndian16(buf[2 * i], buf[2 * i + 1]);
    }
  }

  /** `bmp280_read_regs`: a negative status is passed on, anything else
      becomes 0. */
  function ReadRegs(t: Transfer): (ret: int)
    ensures ret <= 0
    ensures ret < 0 <==> t.status < 0
    ensures ret < 0 ==> ret == t.status
  {
    if t.status < 0 then t.status else 0
  }

  /** `bmp280_read_calib`: on failure the error code comes back and the
      device is untouched; on success every coefficient is replaced. */
  function ReadCalib(dev: Device, t: Transfer): (r: (Device, int))
    requires |t.data| == CALIB_LEN
    ensures r.1 < 0 <==> t.status < 0
    ensures r.1 < 0 ==> r.0 == dev && r.1 == t.status
    ensures r.1 >= 0 ==> r.1 == 0 && r.0.tFine == dev.tFine && EncodeCalib(r.0.calib) == t.data
  {
    var ret := ReadRegs(t);
    if ret < 0 then (dev, ret)
    else
      DecodeEncode(t.data);
      (dev.(calib := DecodeCalib(t.data)), 0)
  }

  // ---------------------------------------------------------------------
  // Raw sample

  /** `(msb << 12) | (lsb << 4) | (xlsb >> 4)`: the three parts occupy
      disjoint bits, so the ORs are sums. */
  function Adc20(msb: u8, lsb: u8, xlsb: u8): (r: s32)
    ensures 0 <= r < 0x10_0000
    ensures r / 0x1000 == msb && r / 16 % 256 == lsb && r % 16 == xlsb / 16
  {
    var low := lsb * 16 + xlsb / 16;
    DivOfSum(msb, low, 0x1000);
    DivOfSum(msb * 256 + lsb, xlsb / 16, 16);
    DivOfSum(msb, lsb, 256);
    msb * 0x1000 + low
  }

  function DecodeRaw(buf: seq<u8>): (s: RawSample)
    requires |buf| == RAW_LEN
    ensures 0 <= s.adcP < 0x10_0000 && 0 <= s.adcT < 0x10_0000
    ensures s.adcP / 0x1000 == buf[0] && s.adcP / 16 % 256 == buf[1] && s.adcP % 16 == buf[2] / 16
    ensures s.adcT / 0x1000 == buf[3] && s.adcT / 16 % 256 == buf[4] && s.adcT % 16 == buf[5] / 16
  {
    RawSample(adcT := Adc20(buf[3], buf[4], buf[5]), adcP := Adc20(buf[0], buf[1], buf[2]))
  }

  /** `bmp280_read_raw_temp_press`: the counts, or the bus error. */
  function ReadRawSample(t: Transfer): (r: Result<RawSample>)
    requires |t.data| == RAW_LEN
    ensures r.Err? <==> t.status < 0
    ensures r.Err? ==> r.code == t.status
    ensures r.Ok? ==> 0 <= r.value.adcP < 0x10_0000 && 0 <= r.value.adcT < 0x10_0000
    ensures r.Ok? ==> r.value.adcP / 0x1000 == t.data[0] && r.value.adcP / 16 % 256 == t.data[1] && r.value.adcP % 16 == t.data[2] / 16
    ensures r.Ok? ==> r.value.adcT / 0x1000 == t.data[3] && r.value.adcT / 16 % 256 == t.data[4] && r.value.adcT % 16 == t.data[5] / 16
  {
    var ret := ReadRegs(t);
    if ret < 0 then Err(ret) else Ok(DecodeRaw(t.data))
  }

  // ---------------------------------------------------------------------
  // Temperature compensation

  /** An s32 shifted right by k lies in [-2^31 / 2^k, 2^31 / 2^k). */
  lemma AsrRange(x: s32, k: nat, bound: int)
    requires k < 32 && Pow2(k) * bound == TWO_31
    ensures -bound <= Asr(x, k) < bound
  {
    var p, r := Pow2(k), Asr(x, k);
    assert p * (r - bound) == p * r - p * bound;
    assert p * (r + bound + 1) == p * r + p * bound + p;
    MulAwayFromZero(p, r - bound);
    MulAwayFromZero(p, r + bound + 1);
  }

  /** `var1 + var2` of `bmp280_compensate_T`, in s32 arithmetic.
      `(s32)dig_T1 << 1` is at most 131070 and cannot wrap.  Both terms are
      s32 values shifted right (by 11 and by 14), so the sum is small and
      never wraps either. */
  function FineTemperature(c: Calib, adcT: s32): (r: s32)
    ensures -0x12_0000 <= r <= 0x12_0000
  {
    var x1 := WrapS32(WrapS32(Asr(adcT, 3) - c.t1 * 2) * c.t2);
    var var1 := Asr(x1, 11);
    var d := WrapS32(Asr(adcT, 4) - c.t1);
    var x2 := WrapS32(Asr(WrapS32(d * d), 12) * c.t3);
    var var2 := Asr(x2, 14);
    assert Pow2(11) == 2048 && Pow2(14) == 16384;
    AsrRange(x1, 11, 0x10_0000);
    AsrRange(x2, 14, 0x2_0000);
    WrapS32(var1 + var2)
  }

  /** `(t_fine * 5 + 128) >> 8`: t_fine / 51.2 rounded to the nearest
      integer (halves upwards), i.e. hundredths of a degree Celsius. */
  function CentiDegrees(tFine: s32): (r: s32)
    ensures -0x80_0000 <= r < 0x80_0000
    ensures -429_496_729 <= tFine <= 429_496_703 ==> 256 * r <= 5 * tFine + 128 < 256 * r + 256
  {
    Asr(WrapS32(WrapS32(tFine * 5) + 128), 8)
  }

  /** `bmp280_compensate_T`: the new state and the temperature.  Only
      `t_fine` changes, and it depends on nothing but the calibration and
      the count. */
  function CompensateTemperature(dev: Device, adcT: s32): (r: (Device, s32))
    ensures r.0.calib == dev.calib
    ensures r.0.tFine == FineTemperature(dev.calib, adcT)
    ensures 256 * r.1 <= 5 * r.0.tFine + 128 < 256 * r.1 + 256
  {
    var tFine := FineTemperature(dev.calib, adcT);
    (dev.(tFine := tFine), CentiDegrees(tFine))
  }

  // ---------------------------------------------------------------------
  // Pressure compensation

  /** The first `var1`: `(t_fine >> 1) - 64000`. */
  function PressureBase(tFine: s32): (r: s32)
    ensures -0x4000_0000 - 64000 <= r < 0x4000_0000 - 64000
  {
    assert Pow2(1) == 2;
    AsrRange(tFine, 1, 0x4000_0000);
    WrapS32(Asr(tFine, 1) - 64000)
  }

  /** `var2` once the dig_P4 term is added. */
  function PressureOffset(c: Calib, tFine: s32): s32
  {
    var var1 := PressureBase(tFine);
    var q := Asr(var1, 2);
    var var2 := WrapS32(Asr(WrapS32(q * q), 11) * c.p6);
    var var2' := WrapS32(var2 + WrapS32(WrapS32(var1 * c.p5) * 2));
    WrapS32(Asr(var2', 2) + WrapS32(c.p4 * 65536))
  }

  /** The second `var1`, after scaling by dig_P1: the divisor.  As an s32
      shifted right by 15 it always fits in 17 bits. */
  function PressureDivisor(c: Calib, tFine: s32): (r: s32)
    ensures -0x1_0000 <= r < 0x1_0000
  {
    var var1 := PressureBase(tFine);
    var q := Asr(var1, 2);
    var a := Asr(WrapS32(c.p3 * Asr(WrapS32(q * q), 13)), 3);
    var b := Asr(WrapS32(c.p2 * var1), 1);
    var var1' := Asr(WrapS32(a + b), 18);
    var x := WrapS32(WrapS32(32768 + var1') * c.p1);
    assert Pow2(15) == 32768;
    AsrRange(x, 15, 0x1_0000);
    Asr(x, 15)
  }

  /** `p` before the division, in u32 arithmetic: the s32 operand
      `var2 >> 12` is converted to u32, so the subtraction is modulo 2^32. */
  function PressureNumerator(adcP: s32, offset: s32): u32
  {
    WrapU32(WrapU32(WrapU32(WrapS32(1048576 - adcP)) - Asr(offset, 12)) * 3125)
  }

  /** Doubling first: `p << 1` cannot wrap below 0x80000000, and the
      quotient is the exact floor of 2p/d. */
  lemma DoubleThenDivide(p: u32, d: int)
    requires p < TWO_31 && d > 0
    ensures WrapU32(p * 2) == 2 * p
    ensures var r := WrapU32(p * 2) / d; r * d <= 2 * p < r * d + d
  {
    FloorDivBounds(2 * p, d);
  }

  lemma HalfQuotient(p: int, d: int, q: int)
    requires d >= 2 && q >= 0 && d * q <= p < d * q + d
    ensures 2 * q <= p
    ensures (2 * q) * d <= 2 * p < (2 * q) * d + 2 * d
  {
    assert (d - 2) * q >= 0;
    assert (2 * q) * d == 2 * (d * q);
  }

  /** Dividing first: `2 * (p / d)` is within one unit below the exact floor
      of 2p/d, and the doubling wraps only when d == 1. */
  lemma DivideThenDouble(p: u32, d: int)
    requires 0 < d < TWO_32
    ensures var r := WrapU32((p / d) * 2);
      && (d >= 2 ==> r * d <= 2 * p < r * d + 2 * d)
      && (d == 1 && p >= TWO_31 ==> r == 2 * p - TWO_32)
  {
    var q := p / d;
    if d >= 2 {
      FloorDivBounds(p, d);
      HalfQuotient(p, d, q);
    } else if p >= TWO_31 {
      WrapAbove(2 * p);
    }
  }

  lemma WrapAbove(x: int)
    requires TWO_32 <= x < 2 * TWO_32
    ensures WrapU32(x) == x - TWO_32
  {
  }

  /** The guarded division.  Below 0x80000000 the doubling happens first and
      the result is the exact floor of 2p/d; above it the division happens
      first, which loses at most one unit, and for d == 1 the doubling wraps. */
  function DivideStep(p: u32, d: u32): (r: u32)
    requires d != 0
    ensures p < TWO_31 ==> r * d <= 2 * p < r * d + d
    ensures p >= TWO_31 && d >= 2 ==> r * d <= 2 * p < r * d + 2 * d
    ensures p >= TWO_31 && d == 1 ==> r == 2 * p - TWO_32
  {
    if p < TWO_31 then
      DoubleThenDivide(p, d);
      WrapU32(p * 2) / d
    else
      DivideThenDouble(p, d);
      WrapU32((p / d) * 2)
  }

  /** The final correction with dig_P7..dig_P9. */
  function PressureCorrection(c: Calib, p: u32): u32
  {
    var var1 := Asr(WrapS32(c.p9 * WrapS32(Lsr(WrapU32(Lsr(p, 3) * Lsr(p, 3)), 13))), 12);
    var var2 := Asr(WrapS32(WrapS32(Lsr(p, 2)) * c.p8), 13);
    WrapU32(WrapS32(WrapS32(p) + Asr(WrapS32(WrapS32(var1 + var2) + c.p7), 4)))
  }

  /** `bmp280_compensate_P`: pressure in Pa from the count and the stored
      `t_fine`.  The device is only read.  A zero divisor gives 0. */
  function CompensatePressure(dev: Device, adcP: s32): (p: u32)
    ensures PressureDivisor(dev.calib, dev.tFine) == 0 ==> p == 0
  {
    var divisor := PressureDivisor(dev.calib, dev.tFine);
    if divisor == 0 then 0
    else
      S32U32RoundTrip(divisor);
      var p := PressureNumerator(adcP, PressureOffset(dev.calib, dev.tFine));
      PressureCorrection(dev.calib, DivideStep(p, WrapU32(divisor)))
  }

  /** One measurement as the probe routine runs it: temperature first, so
      that pressure sees the `t_fine` of the same sample. */
  function Measure(dev: Device, s: RawSample): (r: (Device, s32, u32))
    ensures r.0 == dev.(tFine := FineTemperature(dev.calib, s.adcT))
  {
    var (dev', temp) := CompensateTemperature(dev, s.adcT);
    (dev', temp, CompensatePressure(dev', s.adcP))
  }
}

=== FILE: bmp280_properties.dfy ===
/**
  Properties of the BMP280 model that relate several calls, or relate the
  model to a reference: the datasheet's worked example, exact (unbounded)
  arithmetic, and the decoding of the raw burst.
 */
module Bmp280Properties {
  import opened CInt
  import opened Bmp280
  import opened Bmp280Reference

  /** The calibration of the datasheet's worked example. */
  const ExampleCalib: Calib :=
    Calib(27504, 26435, -1000, 36477, -10685, 3024, 2855, 140, -7, 15500, -14600, 6000)

  lemma ExampleFine()
    ensures FineTemperature(ExampleCalib, 519888) == 128422
  {
    var c := ExampleCalib;
    assert Asr(519888, 3) == 64986;
    assert WrapS32(64986 - c.t1 * 2) == 9978;
    assert WrapS32(9978 * c.t2) == 263768430;
    assert Asr(263768430, 11) == 128793;
    assert Asr(519888, 4) == 32493;
    assert WrapS32(32493 - c.t1) == 4989;
    assert WrapS32(4989 * 4989) == 24890121;
    assert Asr(24890121, 12) == 6076;
    assert WrapS32(6076 * c.t3) == -6076000;
    assert Asr(-6076000, 14) == -371;
    assert WrapS32(128793 + -371) == 128422;
  }

  lemma ExampleCentiDegrees()
    ensures CentiDegrees(128422) == 2508
  {
    assert WrapS32(128422 * 5) == 642110;
    assert WrapS32(642110 + 128) == 642238;
    assert Asr(642238, 8) == 2508;
  }

  lemma ExampleBase()
    ensures PressureBase(128422) == 211
    ensures Asr(211, 2) == 52 && WrapS32(52 * 52) == 2704
  {
    assert Asr(128422, 1) == 64211;
    assert WrapS32(64211 - 64000) == 211;
  }

  lemma ExampleOffset()
    ensures PressureOffset(ExampleCalib, 128422) == 187120048
  {
    var c := ExampleCalib;
    ExampleBase();
    assert Asr(2704, 11) == 1;
    assert WrapS32(1 * c.p6) == -7;
    assert WrapS32(211 * c.p5) == 29540;
    assert WrapS32(29540 * 2) == 59080;
    assert WrapS32(-7 + 59080) == 59073;
    assert Asr(59073, 2) == 14768;
    assert WrapS32(c.p4 * 65536) == 187105280;
    assert WrapS32(14768 + 187105280) == 187120048;
  }

  lemma ExampleDivisor()
    ensures PressureDivisor(ExampleCalib, 128422) == 36471
  {
    var c := ExampleCalib;
    ExampleBase();
    assert Asr(2704, 13) == 0;
    assert WrapS32(c.p3 * 0) == 0;
    assert Asr(0, 3) == 0;
    assert WrapS32(c.p2 * 211) == -2254535;
    assert Asr(-2254535, 1) == -1127268;
    assert WrapS32(0 + -1127268) == -1127268;
    assert Asr(-1127268, 18) == -5;
    assert WrapS32(32768 + -5) == 32763;
    assert WrapS32(32763 * c.p1) == 1195095951;
    assert Asr(1195095951, 15) == 36471;
  }

  lemma ExampleNumerator()
    ensures PressureNumerator(415148, 187120048) == 1836703125
  {
    assert WrapS32(1048576 - 415148) == 633428;
    assert WrapU32(633428) == 633428;
    assert Asr(187120048, 12) == 45683;
    assert WrapU32(633428 - 45683) == 587745;
    assert WrapU32(587745 * 3125) == 1836703125;
  }

  lemma ExampleDivide()
    ensures DivideStep(1836703125, 36471) == 100721
  {
    assert WrapU32(1836703125 * 2) == 3673406250;
    assert 3673406250 / 36471 == 100721;
  }

  lemma ExampleCorrection()
    ensures PressureCorrection(ExampleCalib, 100721) == 100656
  {
    var c := ExampleCalib;
    assert Lsr(100721, 3) == 12590;
    assert WrapU32(12590 * 12590) == 158508100;
    assert Lsr(158508100, 13) == 19349;
    assert WrapS32(19349) == 19349;
    assert WrapS32(c.p9 * 19349) == 116094000;
    assert Asr(116094000, 12) == 28343;
    assert Lsr(100721, 2) == 25180;
    assert WrapS32(25180) == 25180;
    assert WrapS32(25180 * c.p8) == -367628000;
    assert Asr(-367628000, 13) == -44877;
    assert WrapS32(28343 + -44877) == -16534;
    assert WrapS32(-16534 + c.p7) == -1034;
    assert Asr(-1034, 4) == -65;
    assert WrapS32(100721) == 100721;
    assert WrapS32(100721 + -65) == 100656;
    assert WrapU32(100656) == 100656;
  }

  /** With the worked example's coefficients and counts (adc_T = 519888,
      adc_P = 415148) the 32-bit formulas give t_fine = 128422, 25.08 degrees
      Celsius and 100656 Pa, whatever `t_fine` held before. */
  lemma DatasheetExample(stale: s32)
    ensures Measure(Device(ExampleCalib, stale), RawSample(519888, 415148))
         == (Device(ExampleCalib, 128422), 2508, 100656)
  {
    ExampleFine();
    ExampleCentiDegrees();
    ExampleOffset();
    ExampleDivisor();
    ExampleNumerator();
    ExampleDivide();
    ExampleCorrection();
    assert WrapU32(36471) == 36471;
  }

  /** The worked example stays clear of every overflow in the temperature
      formula, so the exact formula gives the same t_fine. */
  lemma ExampleFitsT()
    ensures FitsT(ExampleCalib, 519888)
    ensures ExactFine(ExampleCalib, 519888) == 128422
  {
    var c := ExampleCalib;
    assert 519888 / 8 == 64986 && 519888 / 16 == 32493;
    assert (64986 - c.t1 * 2) * c.t2 == 263768430;
    assert 263768430 / 2048 == 128793;
    assert 4989 * 4989 == 24890121;
    assert 24890121 / 4096 == 6076;
    assert 6076 * c.t3 == -6076000;
    assert -6076000 / 16384 == -371;
  }

  lemma ExampleExactOffset()
    ensures FitsOffset(ExampleCalib, 128422)
    ensures ExactOffset(ExampleCalib, 128422) == 187120048
  {
    var c := ExampleCalib;
    assert 128422 / 2 - 64000 == 211 && 211 / 4 == 52;
    assert 52 * 52 == 2704 && 2704 / 2048 == 1;
    assert 211 * c.p5 == 29540;
    assert 59073 / 4 == 14768;
    assert c.p4 * 65536 == 187105280;
  }

  lemma ExampleExactDivisor()
    ensures FitsDivisor(ExampleCalib, 128422)
    ensures ExactDivisor(ExampleCalib, 128422) == 36471
  {
    var c := ExampleCalib;
    assert 128422 / 2 - 64000 == 211 && 211 / 4 == 52;
    assert 52 * 52 == 2704 && 2704 / 8192 == 0;
    assert c.p2 * 211 == -2254535 && -2254535 / 2 == -1127268;
    assert -1127268 / 262144 == -5;
    assert 32763 * c.p1 == 1195095951;
    assert 1195095951 / 32768 == 36471;
  }

  lemma ExampleExactRest()
    ensures FitsNumerator(415148, 187120048)
    ensures ExactNumerator(415148, 187120048) == 1836703125
    ensures ExactDivide(1836703125, 36471) == 100721
    ensures FitsCorrection(ExampleCalib, 100721)
    ensures ExactCorrection(ExampleCalib, 100721) == 100656
  {
    var c := ExampleCalib;
    assert 187120048 / 4096 == 45683;
    assert 587745 * 3125 == 1836703125;
    assert 1836703125 * 2 == 3673406250 && 3673406250 / 36471 == 100721;
    assert 100721 / 8 == 12590 && 100721 / 4 == 25180;
    assert 12590 * 12590 == 158508100 && 158508100 / 8192 == 19349;
    assert c.p9 * 19349 == 116094000 && 116094000 / 4096 == 28343;
    assert 25180 * c.p8 == -367628000 && -367628000 / 8192 == -44877;
    assert -1034 / 16 == -65;
  }

  /** The worked example stays clear of every overflow in both formulas:
      the exact arithmetic of the datasheet gives the same two results. */
  lemma DatasheetExampleFits()
    ensures FitsT(ExampleCalib, 519888)
    ensures FitsP(ExampleCalib, 128422, 415148)
    ensures ExactFine(ExampleCalib, 519888) == 128422
    ensures ExactPressure(ExampleCalib, 128422, 415148) == 100656
  {
    ExampleFitsT();
    ExampleExactOffset();
    ExampleExactDivisor();
    ExampleExactRest();
  }

  /** One measurement does not depend on the `t_fine` left by an earlier
      one: temperature compensation rewrites it before pressure reads it. */
  lemma MeasureIgnoresStaleFine(dev1: Device, dev2: Device, s: RawSample)
    requires dev1.calib == dev2.calib
    ensures Measure(dev1, s) == Measure(dev2, s)
  {
  }

  /** The low nibble of each XLSB byte has no effect on the counts. */
  lemma RawIgnoresLowNibble(a: seq<u8>, b: seq<u8>)
    requires |a| == RAW_LEN && |b| == RAW_LEN
    requires a[0] == b[0] && a[1] == b[1] && a[2] / 16 == b[2] / 16
    requires a[3] == b[3] && a[4] == b[4] && a[5] / 16 == b[5] / 16
    ensures DecodeRaw(a) == DecodeRaw(b)
  {
    var x, y := DecodeRaw(a), DecodeRaw(b);
    assert x.adcP == 0x1000 * (x.adcP / 0x1000) + 16 * (x.adcP / 16 % 256) + x.adcP % 16;
    assert y.adcP == 0x1000 * (y.adcP / 0x1000) + 16 * (y.adcP / 16 % 256) + y.adcP % 16;
    assert x.adcT == 0x1000 * (x.adcT / 0x1000) + 16 * (x.adcT / 16 % 256) + x.adcT % 16;
    assert y.adcT == 0x1000 * (y.adcT / 0x1000) + 16 * (y.adcT / 16 % 256) + y.adcT % 16;
  }

  /** Conversely, the counts determine every significant bit of the burst:
      bursts that decode alike agree except in the low nibbles. */
  lemma RawDeterminesBurst(a: seq<u8>, b: seq<u8>)
    requires |a| == RAW_LEN && |b| == RAW_LEN
    requires DecodeRaw(a) == DecodeRaw(b)
    ensures a[0] == b[0] && a[1] == b[1] && a[2] / 16 == b[2] / 16
    ensures a[3] == b[3] && a[4] == b[4] && a[5] / 16 == b[5] / 16
  {
  }

  /** Calibration encoding is injective, so a successful read pins the
      coefficient set down completely. */
  lemma ReadCalibDeterminesSet(dev: Device, t: Transfer)
    requires |t.data| == CALIB_LEN && t.status >= 0
    ensures ReadCalib(dev, t).0 == dev.(calib := DecodeCalib(t.data))
  {
    var c := ReadCalib(dev, t).0.calib;
    DecodeEncodeCalib(c);
  }
}

=== FILE: bmp280_reference.dfy ===
/**
  The datasheet's 32-bit compensation formulas in exact integer arithmetic:
  every right shift a floor division, every product and sum unbounded.
  Whenever no intermediate leaves the range of its C type, the driver's
  fixed-width computation gives exactly these values; the predicates below
  say which intermediates have to stay in range.
 */
module Bmp280Reference {
  import opened CInt
  import opened Bmp280

  // ---------------------------------------------------------------------
  // Temperature

  /** The product under the first shift: `((adc_T >> 3) - (T1 << 1)) * T2`. */
  function ExactLinearT(c: Calib, adcT: int): int
  {
    (adcT / 8 - c.t1 * 2) * c.t2
  }

  /** `(adc_T >> 4) - T1`, which the second term squares. */
  function ExactDeltaT(c: Calib, adcT: int): int
  {
    adcT / 16 - c.t1
  }

  /** The product under the last shift of the second term. */
  function ExactQuadraticT(c: Calib, adcT: int): int
  {
    var d := ExactDeltaT(c, adcT);
    (d * d) / 4096 * c.t3
  }

  function ExactFine(c: Calib, adcT: int): int
  {
    ExactLinearT(c, adcT) / 2048 + ExactQuadraticT(c, adcT) / 16384
  }

  /** No intermediate of the temperature formula leaves the s32 range. */
  predicate FitsT(c: Calib, adcT: int)
  {
    var d := ExactDeltaT(c, adcT);
    && InS32(ExactLinearT(c, adcT))
    && InS32(d * d)
    && InS32(ExactQuadraticT(c, adcT))
    && InS32(ExactFine(c, adcT))
  }

  /** The 32-bit temperature formula is the exact one whenever nothing
      overflows: each arithmetic shift truncates exactly like the floor
      division it stands for, and the only other difference is the
      wrap-around. */
  lemma FineTemperatureExact(c: Calib, adcT: s32)
    requires FitsT(c, adcT)
    ensures FineTemperature(c, adcT) == ExactFine(c, adcT)
  {
    assert Pow2(3) == 8 && Pow2(4) == 16 && Pow2(11) == 2048;
    assert Pow2(12) == 4096 && Pow2(14) == 16384;
    FloorDivBounds(adcT, 8);
    FloorDivBounds(adcT, 16);
  }

  // ---------------------------------------------------------------------
  // Pressure, stage by stage

  /** The first `var1`; it can never overflow. */
  lemma BaseExact(tFine: s32)
    ensures PressureBase(tFine) == ExactBase(tFine)
  {
    assert Pow2(1) == 2;
  }

  /** The first `var1`, shared by the offset and the divisor. */
  function ExactBase(tFine: int): int
  {
    tFine / 2 - 64000
  }

  /** `var1 >> 2`, which both halves square. */
  function ExactQuarter(tFine: int): int
  {
    ExactBase(tFine) / 4
  }

  /** The first `var2`: the dig_P6 term. */
  function ExactSquareTerm(c: Calib, tFine: int): int
  {
    var q := ExactQuarter(tFine);
    (q * q) / 2048 * c.p6
  }

  /** `var2` once the dig_P5 term is added. */
  function ExactOffsetSum(c: Calib, tFine: int): int
  {
    ExactSquareTerm(c, tFine) + ExactBase(tFine) * c.p5 * 2
  }

  function ExactOffset(c: Calib, tFine: int): int
  {
    ExactOffsetSum(c, tFine) / 4 + c.p4 * 65536
  }

  predicate FitsOffset(c: Calib, tFine: int)
  {
    var var1, q := ExactBase(tFine), ExactQuarter(tFine);
    && InS32(q * q)
    && InS32(ExactSquareTerm(c, tFine))
    && InS32(var1 * c.p5)
    && InS32(var1 * c.p5 * 2)
    && InS32(ExactOffsetSum(c, tFine))
    && InS32(ExactOffset(c, tFine))
  }

  lemma OffsetExact(c: Calib, tFine: s32)
    requires FitsOffset(c, tFine)
    ensures PressureOffset(c, tFine) == ExactOffset(c, tFine)
  {
    BaseExact(tFine);
    assert Pow2(2) == 4 && Pow2(11) == 2048;
  }

  /** The dig_P3 product of the second `var1`. */
  function ExactCubicProduct(c: Calib, tFine: int): int
  {
    var q := ExactQuarter(tFine);
    c.p3 * ((q * q) / 8192)
  }

  /** The second `var1` before its shift by 18: the dig_P3 and dig_P2 terms. */
  function ExactDivisorSum(c: Calib, tFine: int): int
  {
    ExactCubicProduct(c, tFine) / 8 + (c.p2 * ExactBase(tFine)) / 2
  }

  /** `32768 + var1`, the factor dig_P1 scales. */
  function ExactDivisorFactor(c: Calib, tFine: int): int
  {
    32768 + ExactDivisorSum(c, tFine) / 262144
  }

  function ExactDivisor(c: Calib, tFine: int): int
  {
    (ExactDivisorFactor(c, tFine) * c.p1) / 32768
  }

  predicate FitsDivisor(c: Calib, tFine: int)
  {
    var q := ExactQuarter(tFine);
    && InS32(q * q)
    && InS32(ExactCubicProduct(c, tFine))
    && InS32(c.p2 * ExactBase(tFine))
    && InS32(ExactDivisorSum(c, tFine))
    && InS32(ExactDivisorFactor(c, tFine))
    && InS32(ExactDivisorFactor(c, tFine) * c.p1)
  }

  lemma DivisorExact(c: Calib, tFine: s32)
    requires FitsDivisor(c, tFine)
    ensures PressureDivisor(c, tFine) == ExactDivisor(c, tFine)
  {
    BaseExact(tFine);
    assert Pow2(1) == 2 && Pow2(2) == 4 && Pow2(3) == 8;
    assert Pow2(13) == 8192 && Pow2(15) == 32768 && Pow2(18) == 262144;
  }

  function ExactNumerator(adcP: int, offset: int): int
  {
    (1048576 - adcP - offset / 4096) * 3125
  }

  /** The u32 conversions and the u32 product lose nothing. */
  predicate FitsNumerator(adcP: int, offset: int)
  {
    && InS32(1048576 - adcP)
    && 0 <= 1048576 - adcP
    && InU32(1048576 - adcP - offset / 4096)
    && InU32((1048576 - adcP - offset / 4096) * 3125)
  }

  lemma NumeratorExact(adcP: s32, offset: s32)
    requires FitsNumerator(adcP, offset)
    ensures PressureNumerator(adcP, offset) == ExactNumerator(adcP, offset)
  {
    assert Pow2(12) == 4096;
  }

  /** The guarded division of the datasheet, with an exact divisor. */
  function ExactDivide(p: int, d: int): int
    requires d != 0
  {
    if p < TWO_31 then (p * 2) / d else (p / d) * 2
  }

  /** The division branch is exact unless the divisor is 1 and the
      quotient doubles past 2^32. */
  lemma DivideExact(p: u32, d: u32)
    requires d > 0
    requires p >= TWO_31 ==> d >= 2
    ensures DivideStep(p, d) == ExactDivide(p, d)
  {
    if p >= TWO_31 {
      var q := p / d;
      FloorDivBounds(p, d);
      HalfQuotient(p, d, q);
      assert WrapU32(q * 2) == q * 2;
    } else {
      assert WrapU32(p * 2) == p * 2;
    }
  }

  /** The dig_P9 product of the correction. */
  function ExactP9Product(c: Calib, p: int): int
  {
    c.p9 * (((p / 8) * (p / 8)) / 8192)
  }

  /** The dig_P8 product of the correction. */
  function ExactP8Product(c: Calib, p: int): int
  {
    (p / 4) * c.p8
  }

  /** `var1 + var2` of the correction. */
  function ExactCorrectionSum(c: Calib, p: int): int
  {
    ExactP9Product(c, p) / 4096 + ExactP8Product(c, p) / 8192
  }

  function ExactCorrection(c: Calib, p: int): int
  {
    p + (ExactCorrectionSum(c, p) + c.p7) / 16
  }

  predicate FitsCorrection(c: Calib, p: int)
  {
    && InS32(p)
    && InU32((p / 8) * (p / 8))
    && InS32(ExactP9Product(c, p))
    && InS32(ExactP8Product(c, p))
    && InS32(ExactCorrectionSum(c, p))
    && InS32(ExactCorrectionSum(c, p) + c.p7)
    && InS32(ExactCorrection(c, p))
    && 0 <= ExactCorrection(c, p)
  }

  lemma CorrectionExact(c: Calib, p: u32)
    requires FitsCorrection(c, p)
    ensures PressureCorrection(c, p) == ExactCorrection(c, p)
  {
    assert Pow2(2) == 4 && Pow2(3) == 8 && Pow2(4) == 16;
    assert Pow2(12) == 4096 && Pow2(13) == 8192;
  }

  // ---------------------------------------------------------------------
  // Pressure, whole

  /** `bmp280_compensate_P` in exact arithmetic. */
  function ExactPressure(c: Calib, tFine: int, adcP: int): int
  {
    var d := ExactDivisor(c, tFine);
    if d == 0 then 0
    else ExactCorrection(c, ExactDivide(ExactNumerator(adcP, ExactOffset(c, tFine)), d))
  }

  /** No intermediate of the pressure formula leaves the range of its C
      type, the divisor is not negative (so `(u32)var1` keeps its value),
      and the division branch above 2^31 does not divide by 1. */
  predicate FitsP(c: Calib, tFine: int, adcP: int)
  {
    var d := ExactDivisor(c, tFine);
    && FitsOffset(c, tFine)
    && FitsDivisor(c, tFine)
    && 0 <= d
    && (d != 0 ==>
         var n := ExactNumerator(adcP, ExactOffset(c, tFine));
         && FitsNumerator(adcP, ExactOffset(c, tFine))
         && (n >= TWO_31 ==> d >= 2)
         && FitsCorrection(c, ExactDivide(n, d)))
  }

  /** The 32-bit pressure formula is the exact one whenever nothing
      overflows. */
  lemma CompensatePressureExact(dev: Device, adcP: s32)
    requires FitsP(dev.calib, dev.tFine, adcP)
    ensures CompensatePressure(dev, adcP) == ExactPressure(dev.calib, dev.tFine, adcP)
  {
    var c, tFine := dev.calib, dev.tFine;
    OffsetExact(c, tFine);
    DivisorExact(c, tFine);
    var d := PressureDivisor(c, tFine);
    if d != 0 {
      var offset := PressureOffset(c, tFine);
      NumeratorExact(adcP, offset);
      var n := PressureNumerator(adcP, offset);
      assert WrapU32(d) == d;
      DivideExact(n, d);
      CorrectionExact(c, DivideStep(n, d));
    }
  }
}

=== FILE: c_int.dfy ===
/**
  C fixed-width integer arithmetic, as the Linux kernel compiles it.

  Values are Dafny integers restricted to the range of their C type.  The
  kernel is built with -fno-strict-overflow, so a signed result that leaves
  its range wraps in two's complement exactly like an unsigned one; and the
  conversions `(u32)x` and `(s32)x` keep the low 32 bits.  A signed right
  shift is arithmetic, which on a two's-complement value is division by a
  power of two rounded towards minus infinity.
 */
module CInt {

  const TWO_16: int := 0x1_0000
  const TWO_31: int := 0x8000_0000
  const TWO_32: int := 0x1_0000_0000

  type u8 = x: int | 0 <= x < 0x100
  type u16 = x: int | 0 <= x < 0x1_0000
  type s16 = x: int | -0x8000 <= x < 0x8000
  type u32 = x: int | 0 <= x < 0x1_0000_0000
  type s32 = x: int | -0x8000_0000 <= x < 0x8000_0000

  predicate InS32(x: int) {
    -TWO_31 <= x < TWO_31
  }

  predicate InU32(x: int) {
    0 <= x < TWO_32
  }

  function Pow2(k: nat): (r: nat)
    ensures r > 0
  {
    if k == 0 then 1 else 2 * Pow2(k - 1)
  }

  /** The s32 that agrees with `x` in its low 32 bits: the result of an s32
      operation, or of a `(s32)` conversion, whose exact value is `x`. */
  function WrapS32(x: int): (r: s32)
    ensures (x - r) % TWO_32 == 0
    ensures InS32(x) ==> r == x
  {
    (x + TWO_31) % TWO_32 - TWO_31
  }

  /** The u32 that agrees with `x` in its low 32 bits: the result of a u32
      operation, or of a `(u32)` conversion, whose exact value is `x`. */
  function WrapU32(x: int): (r: u32)
    ensures (x - r) % TWO_32 == 0
    ensures 0 <= x < TWO_32 ==> r == x
  {
    x % TWO_32
  }

  /** The 16-bit pattern `x` read as an s16, i.e. the `(s16)` conversion. */
  function ToS16(x: u16): (r: s16)
    ensures (x - r) % TWO_16 == 0
    ensures x < 0x8000 ==> r == x
  {
    if x < 0x8000 then x else x - TWO_16
  }

  /** The 16-bit pattern of an s16, i.e. the `(u16)` conversion. */
  function ToU16(x: s16): (r: u16)
    ensures (x - r) % TWO_16 == 0
    ensures x >= 0 ==> r == x
  {
    if x >= 0 then x else x + TWO_16
  }

  lemma MulNonneg(a: int, b: int)
    requires a >= 0 && b >= 0
    ensures a * b >= 0
  {
  }

  lemma MulNonpos(a: int, b: int)
    requires a >= 0 && b <= 0
    ensures a * b <= 0
  {
  }

  lemma MulMonotone(d: int, q: int)
    requires d > 0
    ensures q >= 0 ==> q <= d * q
    ensures q < 0 ==> d * q <= -d && d * (q + 1) <= q + 1
  {
    if q >= 0 {
      MulNonneg(d - 1, q);
      assert d * q == (d - 1) * q + q;
    } else {
      MulNonpos(d - 1, q + 1);
      assert d * (q + 1) == (d - 1) * (q + 1) + (q + 1);
      assert d * (q + 1) == d * q + d;
    }
  }

  /** Division by `d` undoes `d * q + m` for a remainder `m` below `d`. */
  lemma DivOfSum(q: int, m: int, d: int)
    requires d > 0 && 0 <= m < d
    ensures (d * q + m) / d == q && (d * q + m) % d == m
  {
    var x := d * q + m;
    var e := q - x / d;
    assert d * e == x % d - m;
    MulAwayFromZero(d, e);
  }

  /** A nonzero multiple of `d` is at least `d` away from zero. */
  lemma MulAwayFromZero(d: int, e: int)
    requires d > 0
    ensures e > 0 ==> d * e >= d
    ensures e < 0 ==> d * e <= -d
  {
    if e > 0 {
      MulNonneg(d, e - 1);
      assert d * e == d * (e - 1) + d;
    } else if e < 0 {
      MulNonpos(d, e + 1);
      assert d * e == d * (e + 1) - d;
    }
  }

  lemma FloorDivBounds(x: int, d: int)
    requires d > 0
    ensures d * (x / d) <= x < d * (x / d) + d
    ensures x >= 0 ==> 0 <= x / d <= x
    ensures x < 0 ==> x <= x / d < 0
  {
    var q, m := x / d, x % d;
    assert x == d * q + m && 0 <= m < d;
    MulMonotone(d, q);
    if x >= 0 {
      assert q >= 0;
    } else {
      assert d * q < 0;
      assert q < 0;
    }
  }

  /** `x >> k` on an s32: arithmetic shift, rounding towards minus infinity. */
  function Asr(x: s32, k: nat): (r: s32)
    requires k < 32
    ensures Pow2(k) * r <= x < Pow2(k) * r + Pow2(k)
  {
    FloorDivBounds(x, Pow2(k));
    x / Pow2(k)
  }

  /** `x >> k` on a u32: logical shift. */
  function Lsr(x: u32, k: nat): (r: u32)
    requires k < 32
    ensures Pow2(k) * r <= x < Pow2(k) * r + Pow2(k)
    ensures r <= x
  {
    FloorDivBounds(x, Pow2(k));
    x / Pow2(k)
  }

  /** `(s32)(u32)x` gives back `x`. */
  lemma S32U32RoundTrip(x: s32)
    ensures WrapS32(WrapU32(x)) == x
  {
  }

  /** `(s16)(u16)x` gives back `x`, and conversely. */
  lemma S16U16RoundTrip(x: s16, y: u16)
    ensures ToS16(ToU16(x)) == x
    ensures ToU16(ToS16(y)) == y
  {
  }
}
